=== FILE: README.md ===
# sFlow aggregation core, modelled in Dafny

The log-processing application reads sFlow flow records from a Kafka topic,
sorts each record's two endpoints into "inside" (the address falls into one of
the configured CIDR ranges) or "outside", groups records into five-minute
windows keyed by source, target, VLANs and protocol, sums packets and bytes
per key in an in-memory cache, and once the cache's approximate size reaches
the configured batch size writes every cache entry as one InfluxDB data point
tagged with a process-wide batch number.

The model covers:

- `Ip` — IPv4/IPv6 addresses as octet sequences, CIDR containment by prefix
  bits, and the textual form of an address (dotted decimal; RFC 5952 text for
  IPv6, compressing the longest run of zero groups, with IPv4-mapped addresses
  shown as `::ffff:a.b.c.d`).
- `Util` — `parse_ip`, `parse_location` (first matching CIDR wins), the
  `Location` type with its serialized form and its debug form.
- `AggregationCache` — the five-minute window alignment and the merge of a
  record into the cache (an occupied entry grows, a vacant one is created).
- `Influx` — the conversion of each cache entry into a data point, the
  two's-complement `as i64` casts, the batch built by iterating the cache,
  and the batch counter that every insert takes.
- `Ingest` — the main loop: the flush check, the receive step with all its
  fatal, dropped and merged outcomes, and whole runs of the loop over a finite
  sequence of bus deliveries and write outcomes.
- `Text`, `Wrappers` — decimal and hexadecimal rendering, `Option`/`Result`.

The write outcome of the InfluxDB client and the deliveries of the Kafka
consumer are parameters: a run is driven by a sequence of booleans (did the
write succeed) and a sequence of deliveries (a bus error, a message without a
payload, an undecodable payload, or a decoded record with its payload length).

## Model

| member | source | states |
|---|---|---|
| Util.ParseIp | src/util.rs:41-65 | An IPv4 EtherType with anything but 4 address bytes is the only error; IPv4 with 4 bytes and IPv6 with exactly 16 bytes give that address (same octets, family matching the EtherType); a wrong-length IPv6 address, ARP and every unknown EtherType give no address and no error |
| Util.Classify | src/util.rs:72-78 | The location is Inside(ip) exactly when some configured range contains the address, and Outside exactly when none does (so an empty list puts every address outside) |
| Util.ParseLocation | src/util.rs:67-82 | Fails exactly when address parsing fails, with the same error; yields no location exactly when parsing yields no address; otherwise Inside/Outside according to whether some range contains the parsed address |
| Util.ClassifyMonotonic | src/util.rs:72-78 | Adding ranges never moves an inside address outside |
| Util.ClassifyOrderIndependent | src/util.rs:72-78 | Although the first matching range wins, the resulting location depends only on the set of ranges, not on their order or repetition |
| Util.ClassifyExamples | src/util.rs:72-78 | 10.1.2.3 is inside 10.0.0.0/8, 8.8.8.8 is outside it, and every address is outside an empty range list |
| Util.Serialize | src/util.rs:13-23 | The serialized text is "outside" exactly for Outside; an inside address never serializes to that word |
| Util.Debug | src/influx.rs:30-31 | The derived debug form: "Outside" exactly for Outside, and `Inside(<address text>)` for an inside address, since `IpAddr`'s `Debug` prints the same text as its `Display` |
| Util.DebugDiffersFromSerialize | src/influx.rs:30-31 | The debug form used for the source/target tags never equals the serialized form of the same location |
| Ip.Contains | src/util.rs:74 | A range contains an address when the families match, the prefix fits the address width and the first prefix bits of both agree |
| Ip.ContainsNetwork | src/util.rs:74 | A range whose prefix fits its family contains its own network address |
| Ip.ContainsFamily | src/util.rs:74 | A /0 range contains exactly the addresses of its family; no range contains an address of the other family |
| Ip.ContainsWidens | src/util.rs:74 | Shortening the prefix of a range only adds addresses |
| Ip.IpText | src/util.rs:19 | The text of an address uses only decimal and hexadecimal digits, ':' and '.' |
| Ip.LongestZeroRun | src/util.rs:19 | The zero run chosen for `::` compression in the IPv6 text consists of zero groups only, no run of zero groups is longer, and no equally long run starts earlier (RFC 5952, section 4.2.3) |
| Ip.TieGoesToFirstRun | src/util.rs:19 | For the groups 1:0:0:1:0:0:1:1 the compressed run is the one starting at group 1, of two groups, not the equally long one at group 4 |
| Ip.TieText | src/util.rs:19 | The address with groups 1:0:0:1:0:0:1:1 is written `1::1:0:0:1:1`, not `1:0:0:1::1:1` |
| Text.DecimalRoundTrip | src/influx.rs:32-39 | Reading back the decimal text of a number (the `to_string` of the VLAN, protocol and batch-number tags) gives the number |
| Text.DecimalInjective | src/influx.rs:39 | Two batch numbers have the same tag text exactly when they are equal |
| AggregationCache.Bucket | src/main.rs:186-190 | The window start is a multiple of 300 seconds, at most the flow start, and less than 300 seconds before it |
| AggregationCache.BucketUnique | src/main.rs:186-190 | Any multiple of 300 within 300 seconds at or below t is the window start of t |
| AggregationCache.BucketIdempotent | src/main.rs:186-190 | Aligning an aligned time changes nothing |
| AggregationCache.BucketMonotonic | src/main.rs:186-190 | Later flows never fall into earlier windows |
| AggregationCache.SameBucketIffSameWindow | src/main.rs:186-190 | Two times share a key time exactly when they lie in the same 300-second window, and shifting by 300 seconds shifts the window by 300 |
| AggregationCache.Merge | src/main.rs:188-208 | After merging a record the keys are the old keys plus the record's key; an occupied entry has the record's packets and bytes added; a vacant one holds exactly the record's counts; every other entry is unchanged |
| AggregationCache.MergeAllKeys | src/main.rs:188-208 | After merging a sequence of records a key is present exactly when it was before or some record carries it |
| AggregationCache.MergeAllEntry | src/main.rs:188-208 | After merging a sequence of records each key's counts are its earlier counts plus the sum of the packets and bytes of the records carrying that key |
| AggregationCache.MergeCommutes | src/main.rs:188-208 | Merging two records in either order gives the same cache |
| Influx.AsI64 | src/influx.rs:40-43 | The `as i64` cast of an unsigned count lies in the i64 range, is congruent to it modulo 2^64, and is the value itself below 2^63 |
| Influx.PointOf | src/influx.rs:29-44 | Each cache entry becomes one point of the "sflow" measurement |
| Influx.PointNames | src/influx.rs:29-41 | A point's tags are named source, target, src_vlan, dst_vlan, proto and batch_number, in that order, and its fields packets and bytes |
| Influx.PointTags | src/influx.rs:29-39 | A data point's tags source, target, src_vlan, dst_vlan, proto and batch_number are each found under their name, with the debug form of the locations and the decimal text of the numbers |
| Influx.PointOfReadsBack | src/influx.rs:29-44 | The packets and bytes fields are the counters' `as i64` casts and the timestamp is the cast key time times 10^9, so below 2^63 they read back the counts and the window start in nanoseconds; the VLAN, protocol and batch tags parse back to their numbers; the endpoint tags are the debug forms, never the serialized ones |
| Influx.BuildBatch | src/influx.rs:25-46 | Iterating the cache produces one point per entry: every cache key appears exactly once in the iteration order and each point is the point of its entry with the given batch number |
| Influx.InsertDataIntoInflux | src/influx.rs:14-52 | An insert takes the current batch number and advances the counter by one whether or not the write succeeds; the batch covers the whole cache once, its points are exactly the batch of that cache and number, and every point's batch_number tag is the decimal text of the number taken |
| Influx.BatchesNeverCollide | src/influx.rs:35-39 | Points of two batches with different numbers never have the same tags, whatever the two caches hold, so a later insert cannot overwrite an earlier one's points |
| Ingest.RecordKey | src/main.rs:186-196 | The key of a record holds the locations `parse_location` gives for its source and target addresses, the 300-second window of its flow start, and its VLANs and protocol |
| Ingest.Receive | src/main.rs:167-219 | A bus error changes nothing; a missing payload, an undecodable payload, an address rejected for its EtherType and a receive time beyond i64 end the process; a record with an endpoint that has no address only adds its bytes to the transferred total; any other record is merged under its key and grows the size by 4 plus the payload length; the batch number is never touched |
| Ingest.FlushCheck | src/main.rs:145-165 | Nothing is written below the batch size; at or above it a batch number is taken; a failed write keeps cache and size; a successful write empties the cache and zeroes the size together |
| Ingest.Step | src/main.rs:144-220 | One pass of the loop either goes on, having used up at least one input, or stops; the process dies only right after taking a delivery that the bus did deliver |
| Ingest.Run | src/main.rs:144-220 | A run that ends the process ends it right after taking a delivered message, never during a write |
| Ingest.StepBookkeeping | src/main.rs:144-220 | One pass of the loop makes at most one write attempt, which takes the counter's current value; the counter advances by the number of attempts, one write outcome is used per attempt, and deliveries are taken from the front of the queue |
| Ingest.RunBatchNumbers | src/main.rs:144-165 | Over a whole run the counter advances by exactly the number of write attempts and the attempts take strictly increasing numbers, so no batch number is ever reused |
| Ingest.RunBatchesNeverCollide | src/main.rs:144-165 | Within a run every write attempt, retries of failed writes included, sends points whose tags differ from those of every other attempt |
| Ingest.RunStarvesOnlyOnExhaustion | src/main.rs:144-220 | A run that neither died nor went on stopped for lack of input: it consumed every delivery, or a write was due with no outcome left |
| Ingest.RunTakesInOrder | src/main.rs:144-171 | The loop consumes bus deliveries strictly in bus order, never skipping or repeating one |
| Ingest.StepShape | src/main.rs:144-165 | A pass begins with a write of exactly the current cache and size when the size has reached the batch size (and only then); a failed write ends the pass with cache and size unchanged and the loop still due; a pass can end on a successful write only when no delivery is pending |
| Ingest.RunLogShape | src/main.rs:144-165 | Over a whole run writes happen only at or above the batch size, a failed write is retried with the same cache and size before anything is received, and a successful write is followed by a receive |
| Ingest.StepKeepsConsistency | src/main.rs:163-214 | One pass keeps the size counter consistent with the cache: zero exactly when the cache is empty, and at least 4 bytes per entry |
| Ingest.RunKeepsConsistency | src/main.rs:163-214 | The same consistency holds after every run from a consistent state |
| Ingest.ScenarioFlushBeforeFourthRecord | src/main.rs:144-214 | With a batch size of 100 and no ranges, three records of size 40 are merged (the first two share a key, so the cache holds two entries); once the size reaches 120 that cache is written with batch number 0 before the fourth record is received, and that record, in a later window, starts a fresh cache of size 40 |
| Ingest.ScenarioDistinctProtocols | src/main.rs:188-208 | Two records that differ only in protocol land under two cache keys |

## Left out

- Configuration loading (src/config.rs): it only reads settings; the batch size and the CIDR list are parameters here.
- The build script (build.rs): it generates the version strings and compiles `flow.proto` into the protobuf decoder; neither is part of the loop's logic, and decoding is abstracted as described below.
- Kafka client setup, its callbacks and the subscription (src/main.rs:53-107): the consumer is abstracted as a sequence of deliveries.
- The metrics reporter task (src/main.rs:109-135): it runs concurrently, reads the size counter and the last processing time, and once a second prints and resets the transferred-bytes total to 0. The model keeps `transferred` as a running total since start and does not model the periodic reset, because the reporter's timing is independent of the loop.
- Protobuf decoding of the payload: a delivery is either undecodable or already a decoded record.
- The InfluxDB client, the async runtime and the five-second sleep after a failed write: a write is one boolean outcome; the sleep changes no state.
- Influx.PointOf: a failure of the data-point builder is not modelled separately; it is folded into the write outcome, as both end the insert with an error.
- Ingest.Receive: the unsigned 64-bit counters (packet, byte and size totals, the five-minute key time) are unbounded naturals; wrap-around of `+=` on u64/usize is not modelled.
- Influx.PointOf: the multiplication of the key time by 10^9 is not wrapped to i64; only the casts of the counts and of the key time are.
- Influx.InsertDataIntoInflux: the batch counter is an unbounded natural; the atomic's wrap-around after 2^63 inserts is not modelled, and the atomic access is sequential here because the loop is the only writer.
- Parsing of the configured CIDR strings (the `cidr_utils` crate): ranges are given as a network address and a prefix length.
- Ip.Contains: the `cidr_utils` crate's containment test is not part of this model; it is modelled as same family plus agreement of the first prefix bits, and the bit-level lemmas relating a full-length prefix to address equality are not stated.
- Ip.IpText: the address text comes from the Rust standard library, which is not part of this model; it is modelled after RFC 5952 and after the standard library's special form for IPv4-mapped addresses.
- Influx.BuildBatch: the hash map's iteration order is unspecified; the model picks an arbitrary remaining key at each step and states only what holds for every order.
- Tracing and logging calls: they have no effect on state.

=== FILE: cache.dfy ===
/** The aggregation cache of the ingestion loop (src/main.rs): 300-second
    window alignment of the flow start time and the insert-or-add merge of a
    record's counters under its key. */
module AggregationCache {
  import opened Util

  /** `seconds_alignment`: five minutes. */
  const WindowSeconds: nat := 60 * 5

  type Cache = map<AggregatedKey, CommunicationData>

  /** `time_flow_start.div_euclid(300) * 300`: the start of the window holding `t`. */
  function Bucket(t: nat): (b: nat)
    ensures b % WindowSeconds == 0
    ensures b <= t < b + WindowSeconds
  {
    t / WindowSeconds * WindowSeconds
  }

  /** The bucket is the only window start within 300 seconds at or below `t`. */
  lemma BucketUnique(t: nat, b: nat)
    requires b % WindowSeconds == 0 && b <= t < b + WindowSeconds
    ensures Bucket(t) == b
  {
    assert b == b / WindowSeconds * WindowSeconds;
    assert t / WindowSeconds == b / WindowSeconds;
  }

  lemma BucketIdempotent(t: nat)
    ensures Bucket(Bucket(t)) == Bucket(t)
  {
    BucketUnique(Bucket(t), Bucket(t));
  }

  lemma BucketMonotonic(s: nat, t: nat)
    requires s <= t
    ensures Bucket(s) <= Bucket(t)
  {
    assert s / WindowSeconds <= t / WindowSeconds;
  }

  /** Two timestamps share a bucket exactly when they lie in the same window,
      and a timestamp 300 seconds later lies in the next bucket. */
  lemma SameBucketIffSameWindow(s: nat, t: nat)
    ensures Bucket(s) == Bucket(t) <==> s / WindowSeconds == t / WindowSeconds
    ensures Bucket(t + WindowSeconds) == Bucket(t) + WindowSeconds
  {
    BucketUnique(t + WindowSeconds, Bucket(t) + WindowSeconds);
  }

  /** The counters the cache holds for `key`, zero when absent. */
  function Lookup(cache: Cache, key: AggregatedKey): CommunicationData {
    if key in cache then cache[key] else CommunicationData(0, 0)
  }

  function Add(a: CommunicationData, b: CommunicationData): CommunicationData {
    CommunicationData(a.packets + b.packets, a.bytes + b.bytes)
  }

  /** The `entry(key)` match: an occupied entry gains the record's bytes and
      packets, a vacant one is inserted with the record's own counts, and no
      other key is touched. */
  function Merge(cache: Cache, key: AggregatedKey, packets: nat, bytes: nat): (r: Cache)
    ensures r.Keys == cache.Keys + {key}
    ensures key in cache ==> r[key] == CommunicationData(cache[key].packets + packets, cache[key].bytes + bytes)
    ensures key !in cache ==> r[key] == CommunicationData(packets, bytes)
    ensures forall k :: k in cache && k != key ==> r[k] == cache[k]
  {
    if key in cache then
      var e := cache[key];
      cache[key := CommunicationData(e.packets + packets, e.bytes + bytes)]
    else
      cache[key := CommunicationData(packets, bytes)]
  }

  /** One record's contribution to the cache. */
  datatype Contribution = Contribution(key: AggregatedKey, packets: nat, bytes: nat)

  /** The cache after merging the contributions in arrival order. */
  function MergeAll(cache: Cache, cs: seq<Contribution>): Cache
    decreases |cs|
  {
    if |cs| == 0 then cache
    else MergeAll(Merge(cache, cs[0].key, cs[0].packets, cs[0].bytes), cs[1..])
  }

  /** Total packets and bytes of the contributions under `key`. */
  function SumFor(cs: seq<Contribution>, key: AggregatedKey): CommunicationData
    decreases |cs|
  {
    if |cs| == 0 then CommunicationData(0, 0)
    else
      var rest := SumFor(cs[1..], key);
      if cs[0].key == key then Add(CommunicationData(cs[0].packets, cs[0].bytes), rest) else rest
  }

  /** Some contribution carries `key`. */
  predicate Carries(cs: seq<Contribution>, key: AggregatedKey) {
    exists i :: 0 <= i < |cs| && cs[i].key == key
  }

  lemma CarriesCons(cs: seq<Contribution>, key: AggregatedKey)
    requires |cs| > 0
    ensures Carries(cs, key) <==> cs[0].key == key || Carries(cs[1..], key)
  {
    if Carries(cs[1..], key) {
      var i :| 0 <= i < |cs[1..]| && cs[1..][i].key == key;
      assert cs[i + 1].key == key;
    }
    if Carries(cs, key) && cs[0].key != key {
      var i :| 0 <= i < |cs| && cs[i].key == key;
      assert cs[1..][i - 1].key == key;
    }
  }

  /** One merge, seen through `Lookup`. */
  lemma MergeLookup(cache: Cache, c: Contribution, key: AggregatedKey)
    ensures Lookup(Merge(cache, c.key, c.packets, c.bytes), key)
            == if c.key == key then Add(Lookup(cache, key), CommunicationData(c.packets, c.bytes)) else Lookup(cache, key)
  {
  }

  /** After merging a sequence of records a key is present exactly when it
      was present before or some record carried it. */
  lemma {:induction false} MergeAllKeys(cache: Cache, cs: seq<Contribution>, key: AggregatedKey)
    ensures key in MergeAll(cache, cs) <==> key in cache || Carries(cs, key)
    decreases |cs|
  {
    if |cs| > 0 {
      var next := Merge(cache, cs[0].key, cs[0].packets, cs[0].bytes);
      assert MergeAll(cache, cs) == MergeAll(next, cs[1..]);
      MergeAllKeys(next, cs[1..], key);
      assert key in next <==> key in cache || key == cs[0].key;
      CarriesCons(cs, key);
    }
  }

  /** After merging a sequence of records each key holds what it held
      before plus the sums of the packets and bytes of the records carrying it. */
  lemma {:induction false} MergeAllEntry(cache: Cache, cs: seq<Contribution>, key: AggregatedKey)
    ensures Lookup(MergeAll(cache, cs), key) == Add(Lookup(cache, key), SumFor(cs, key))
    decreases |cs|
  {
    if |cs| > 0 {
      var next := Merge(cache, cs[0].key, cs[0].packets, cs[0].bytes);
      assert MergeAll(cache, cs) == MergeAll(next, cs[1..]);
      MergeAllEntry(next, cs[1..], key);
      MergeLookup(cache, cs[0], key);
      var rest := SumFor(cs[1..], key);
      if cs[0].key == key {
        assert SumFor(cs, key) == Add(CommunicationData(cs[0].packets, cs[0].bytes), rest);
      } else {
        assert SumFor(cs, key) == rest;
      }
    }
  }

  /** Merging two records gives the same cache in either arrival order. */
  lemma MergeCommutes(cache: Cache, a: Contribution, b: Contribution)
    ensures MergeAll(cache, [a, b]) == MergeAll(cache, [b, a])
  {
    var ca, cb := Merge(cache, a.key, a.packets, a.bytes), Merge(cache, b.key, b.packets, b.bytes);
    var ab, ba := Merge(ca, b.key, b.packets, b.bytes), Merge(cb, a.key, a.packets, a.bytes);
    assert MergeAll(cache, [a, b]) == ab by {
      assert [a, b][1..] == [b] && [b][1..] == [];
      assert MergeAll(cache, [a, b]) == MergeAll(ca, [b]);
      assert MergeAll(ca, [b]) == MergeAll(ab, []);
    }
    assert MergeAll(cache, [b, a]) == ba by {
      assert [b, a][1..] == [a] && [a][1..] == [];
      assert MergeAll(cache, [b, a]) == MergeAll(cb, [a]);
      assert MergeAll(cb, [a]) == MergeAll(ba, []);
    }
    forall k | k in ab
      ensures k in ba && ab[k] == ba[k]
    {
      MergeLookup(cache, a, k);
      MergeLookup(cache, b, k);
      MergeLookup(ca, b, k);
      MergeLookup(cb, a, k);
    }
    assert ab.Keys == ba.Keys;
  }
}

=== FILE: influx.dfy ===
/** Conversion of the aggregation cache into one batch of InfluxDB data
    points, and the process-wide batch counter (src/influx.rs). The client's
    write is abstracted to a success flag supplied by the caller. */
module Influx {
  import opened Wrappers
  import opened Text
  import opened Util
  import opened AggregationCache

  const Measurement: string := "sflow"

  /** The sink stores nanoseconds; keys hold seconds. */
  const NanosPerSecond: nat := 1_000_000_000

  const TwoTo63: int := 0x8000_0000_0000_0000
  const TwoTo64: int := 0x1_0000_0000_0000_0000

  /** A line-protocol point: measurement, ordered tags, ordered integer fields, timestamp. */
  datatype DataPoint = DataPoint(
    measurement: string,
    tags: seq<(string, string)>,
    fields: seq<(string, int)>,
    timestamp: int)

  /** `v as i64` for an unsigned 64-bit `v`: the low 64 bits read as two's complement. */
  function AsI64(v: nat): (r: int)
    ensures -TwoTo63 <= r < TwoTo63
    ensures (v - r) % TwoTo64 == 0
    ensures v < TwoTo63 ==> r == v
  {
    var w := v % TwoTo64;
    if w < TwoTo63 then w else w - TwoTo64
  }

  /** The point written for one cache entry: the key's fields as tags (the
      endpoints in their `Debug` form), the shared batch number as a tag, the
      counters as `i64` fields and the window start in nanoseconds. */
  function PointOf(key: AggregatedKey, data: CommunicationData, batchNumber: nat): (p: DataPoint)
    ensures p.measurement == Measurement
  {
    DataPoint(
      Measurement,
      [ ("source", Debug(key.source)),
        ("target", Debug(key.target)),
        ("src_vlan", Decimal(key.srcVlan)),
        ("dst_vlan", Decimal(key.dstVlan)),
        ("proto", Decimal(key.proto)),
        ("batch_number", Decimal(batchNumber)) ],
      [ ("packets", AsI64(data.packets)),
        ("bytes", AsI64(data.bytes)) ],
      AsI64(key.time) * NanosPerSecond)
  }

  /** The names of a tag or field list, in order. */
  function Names<V>(kvs: seq<(string, V)>): seq<string> {
    if |kvs| == 0 then [] else [kvs[0].0] + Names(kvs[1..])
  }

  /** The value of the first tag named `name`. */
  function TagValue(tags: seq<(string, string)>, name: string): Option<string> {
    if |tags| == 0 then None
    else if tags[0].0 == name then Some(tags[0].1)
    else TagValue(tags[1..], name)
  }

  /** The value of the first field named `name`. */
  function FieldValue(fields: seq<(string, int)>, name: string): Option<int> {
    if |fields| == 0 then None
    else if fields[0].0 == name then Some(fields[0].1)
    else FieldValue(fields[1..], name)
  }

  /** Lookup finds the first tag of that name. */
  lemma TagAt(tags: seq<(string, string)>, name: string, i: nat)
    requires i < |tags| && tags[i].0 == name
    requires forall j :: 0 <= j < i ==> tags[j].0 != name
    ensures TagValue(tags, name) == Some(tags[i].1)
    decreases i
  {
    if i > 0 {
      TagAt(tags[1..], name, i - 1);
    }
  }

  /** The tags and fields of a point, by name and in order. */
  lemma PointNames(key: AggregatedKey, data: CommunicationData, batchNumber: nat)
    ensures var p := PointOf(key, data, batchNumber);
      && Names(p.tags) == ["source", "target", "src_vlan", "dst_vlan", "proto", "batch_number"]
      && Names(p.fields) == ["packets", "bytes"]
  {
    var p := PointOf(key, data, batchNumber);
    NamesAt(p.tags);
    NamesAt(p.fields);
  }

  lemma {:induction false} NamesAt<V>(kvs: seq<(string, V)>)
    ensures |Names(kvs)| == |kvs|
    ensures forall i :: 0 <= i < |kvs| ==> Names(kvs)[i] == kvs[i].0
  {
    if |kvs| > 0 {
      NamesAt(kvs[1..]);
    }
  }

  /** Every tag of a point is found under its own name. */
  lemma PointTags(key: AggregatedKey, data: CommunicationData, batchNumber: nat)
    ensures var t := PointOf(key, data, batchNumber).tags;
      && TagValue(t, "source") == Some(Debug(key.source))
      && TagValue(t, "target") == Some(Debug(key.target))
      && TagValue(t, "src_vlan") == Some(Decimal(key.srcVlan))
      && TagValue(t, "dst_vlan") == Some(Decimal(key.dstVlan))
      && TagValue(t, "proto") == Some(Decimal(key.proto))
      && TagValue(t, "batch_number") == Some(Decimal(batchNumber))
  {
    var t := PointOf(key, data, batchNumber).tags;
    assert "source"[0] != "target"[0] && "src_vlan"[0] != "dst_vlan"[0];
    TagAt(t, "source", 0);
    TagAt(t, "target", 1);
    TagAt(t, "src_vlan", 2);
    TagAt(t, "dst_vlan", 3);
    TagAt(t, "proto", 4);
    TagAt(t, "batch_number", 5);
  }

  /** What a reader of the stored point recovers: the VLAN, protocol and batch
      tags parse back to the key's numbers and the batch number, the endpoint
      tags are the `Debug` forms (never the serialized ones), the fields are
      the counters' `as i64` casts and the timestamp is the cast window start
      times 10^9, so below 2^63 they read back the counts and the window start
      in nanoseconds. */
  lemma PointOfReadsBack(key: AggregatedKey, data: CommunicationData, batchNumber: nat)
    ensures var p := PointOf(key, data, batchNumber);
      && p.measurement == "sflow"
      && TagValue(p.tags, "source") == Some(Debug(key.source)) != Some(Serialize(key.source))
      && TagValue(p.tags, "target") == Some(Debug(key.target)) != Some(Serialize(key.target))
      && TagValue(p.tags, "src_vlan").Some? && IsDecimal(TagValue(p.tags, "src_vlan").value)
      && ParseDecimal(TagValue(p.tags, "src_vlan").value) == key.srcVlan
      && TagValue(p.tags, "dst_vlan").Some? && IsDecimal(TagValue(p.tags, "dst_vlan").value)
      && ParseDecimal(TagValue(p.tags, "dst_vlan").value) == key.dstVlan
      && TagValue(p.tags, "proto").Some? && IsDecimal(TagValue(p.tags, "proto").value)
      && ParseDecimal(TagValue(p.tags, "proto").value) == key.proto
      && TagValue(p.tags, "batch_number").Some? && IsDecimal(TagValue(p.tags, "batch_number").value)
      && ParseDecimal(TagValue(p.tags, "batch_number").value) == batchNumber
      && FieldValue(p.fields, "packets") == Some(AsI64(data.packets))
      && FieldValue(p.fields, "bytes") == Some(AsI64(data.bytes))
      && p.timestamp == AsI64(key.time) * NanosPerSecond
      && (data.packets < TwoTo63 ==> FieldValue(p.fields, "packets") == Some(data.packets as int))
      && (data.bytes < TwoTo63 ==> FieldValue(p.fields, "bytes") == Some(data.bytes as int))
      && (key.time < TwoTo63 ==> p.timestamp == key.time * NanosPerSecond)
  {
    PointTags(key, data, batchNumber);
    DebugDiffersFromSerialize(key.source);
    DebugDiffersFromSerialize(key.target);
    DecimalRoundTrip(key.srcVlan);
    DecimalRoundTrip(key.dstVlan);
    DecimalRoundTrip(key.proto);
    DecimalRoundTrip(batchNumber);
    var f := PointOf(key, data, batchNumber).fields;
    assert "packets"[0] != "bytes"[0];
    assert FieldValue(f, "bytes") == FieldValue(f[1..], "bytes");
  }

  /** `BATCH_NUMBER.fetch_add(1)`: the value after an insert has taken the
      current one. The loop's flush and the insert share this step. */
  function NextBatchNumber(counter: nat): nat {
    counter + 1
  }

  /** The points one insert writes: one per cache entry, all with the batch number. */
  function BatchOf(cache: Cache, batchNumber: nat): set<DataPoint> {
    set k | k in cache :: PointOf(k, cache[k], batchNumber)
  }

  /** The batch number is what keeps two inserts apart: points of batches
      with different numbers never share their tag set, so (the tags and the
      timestamp being the point's identity in the sink) a later batch never
      overwrites a point of an earlier one, whatever the caches held. */
  lemma BatchesNeverCollide(c1: Cache, n1: nat, c2: Cache, n2: nat)
    requires n1 != n2
    ensures forall p, q :: p in BatchOf(c1, n1) && q in BatchOf(c2, n2) ==> p.tags != q.tags
  {
    forall p, q | p in BatchOf(c1, n1) && q in BatchOf(c2, n2)
      ensures p.tags != q.tags
    {
      var k1 :| k1 in c1 && p == PointOf(k1, c1[k1], n1);
      var k2 :| k2 in c2 && q == PointOf(k2, c2[k2], n2);
      PointTags(k1, c1[k1], n1);
      PointTags(k2, c2[k2], n2);
      DecimalInjective(n1, n2);
    }
  }

  /** Builds one point per cache entry, visiting the entries in an arbitrary
      order (the hash map's iteration order). `order[i]` is the key whose
      entry produced `points[i]`; every key is visited exactly once. */
  method BuildBatch(cache: Cache, batchNumber: nat) returns (points: seq<DataPoint>, order: seq<AggregatedKey>)
    ensures |points| == |order| == |cache|
    ensures forall i :: 0 <= i < |order| ==> order[i] in cache && points[i] == PointOf(order[i], cache[order[i]], batchNumber)
    ensures forall i, j :: 0 <= i < j < |order| ==> order[i] != order[j]
    ensures forall k :: k in cache ==> k in order
  {
    var remaining := cache.Keys;
    points, order := [], [];
    while remaining != {}
      invariant remaining <= cache.Keys
      invariant |order| + |remaining| == |cache|
      invariant |points| == |order|
      invariant forall i :: 0 <= i < |order| ==>
                  order[i] in cache && order[i] !in remaining && points[i] == PointOf(order[i], cache[order[i]], batchNumber)
      invariant forall i, j :: 0 <= i < j < |order| ==> order[i] != order[j]
      invariant forall k :: k in cache && k !in remaining ==> k in order
      decreases remaining
    {
      var k :| k in remaining;
      points := points + [PointOf(k, cache[k], batchNumber)];
      order := order + [k];
      remaining := remaining - {k};
    }
  }

  /** A listing that visits every entry once holds exactly the batch's points. */
  lemma ListedBatch(cache: Cache, n: nat, points: seq<DataPoint>, order: seq<AggregatedKey>)
    requires |points| == |order|
    requires forall i :: 0 <= i < |order| ==> order[i] in cache && points[i] == PointOf(order[i], cache[order[i]], n)
    requires forall k :: k in cache ==> k in order
    ensures forall p :: p in points <==> p in BatchOf(cache, n)
  {
    forall p | p in BatchOf(cache, n)
      ensures p in points
    {
      var k :| k in cache && p == PointOf(k, cache[k], n);
      var i :| 0 <= i < |order| && order[i] == k;
      assert points[i] == p;
    }
  }

  /** `insert_data_into_influx`: the batch number is taken and the counter
      advanced before the write, so a failed write still consumes a number;
      every point of the batch carries that number. The cache is only read. */
  method InsertDataIntoInflux(cache: Cache, counter: nat, writeSucceeds: bool)
    returns (ok: bool, next: nat, batch: seq<DataPoint>, order: seq<AggregatedKey>)
    ensures next == counter + 1
    ensures ok == writeSucceeds
    ensures |batch| == |order| == |cache|
    ensures forall k :: k in cache ==> k in order
    ensures forall i, j :: 0 <= i < j < |order| ==> order[i] != order[j]
    ensures forall i :: 0 <= i < |order| ==> order[i] in cache && batch[i] == PointOf(order[i], cache[order[i]], counter)
    ensures forall i :: 0 <= i < |batch| ==> TagValue(batch[i].tags, "batch_number") == Some(Decimal(counter))
    ensures forall p :: p in batch <==> p in BatchOf(cache, counter)
  {
    var batchNumber := counter;
    next := NextBatchNumber(counter);
    batch, order := BuildBatch(cache, batchNumber);
    forall i | 0 <= i < |batch|
      ensures TagValue(batch[i].tags, "batch_number") == Some(Decimal(counter))
    {
      PointTags(order[i], cache[order[i]], counter);
    }
    ListedBatch(cache, counter, batch, order);
    ok := writeSucceeds;
  }
}

=== FILE: ingest.dfy ===
/** The ingestion/flush loop of src/main.rs as a state machine: before each
    receive the due check may flush the cache (keeping it on failure, clearing
    it on success); each delivery from the bus is then dropped, merged, or
    ends the process. The bus, the decoder and the sink are abstracted to the
    events they produce. */
module Ingest {
  import opened Wrappers
  import opened Ip
  import opened Util
  import opened AggregationCache
  import Influx

  /** `std::mem::size_of::<u32>()`: the per-record overhead of the size heuristic. */
  const RecordOverhead: nat := 4

  /** `i64::MAX`; a larger receive time fails `i64::try_from`. */
  const I64Max: nat := 0x7FFF_FFFF_FFFF_FFFF

  /** The decoded flow message, reduced to the fields the loop reads. */
  datatype FlowRecord = FlowRecord(
    etype: u32,
    srcAddr: seq<byte>,
    dstAddr: seq<byte>,
    srcVlan: u32,
    dstVlan: u32,
    proto: u32,
    bytes: nat,
    packets: nat,
    timeFlowStart: nat,
    timeReceived: nat)

  /** What one `consumer.recv()` yields. */
  datatype Delivery =
    | BusError
    | NoPayload
    | Undecodable
    | Decoded(record: FlowRecord, payloadLength: nat)

  /** The conditions that end the process. */
  datatype Fatal =
    | PayloadMissing
    | DecodeFailed
    | AddressRejected(error: AddrError)
    | ReceiveTimeOutOfRange

  /** The part of the configuration the loop reads. */
  datatype Config = Config(batchSize: nat, cidrs: seq<Cidr>)

  /** The loop's state: the cache, the approximate size counter, the batch
      counter of the sink writer, and the two monitoring counters. */
  datatype Aggregator = Aggregator(
    cache: Cache,
    size: nat,
    batchNumber: nat,
    transferred: nat,
    lastProcessed: nat)

  /** The state on entry to the loop. */
  const Initial: Aggregator := Aggregator(map[], 0, 0, 0, 0)

  /** The size counter and the cache agree: every entry was paid for with at
      least the fixed overhead, and the counter is zero exactly when the cache
      is empty. */
  ghost predicate Consistent(s: Aggregator) {
    && s.size >= RecordOverhead * |s.cache|
    && (s.size == 0 <==> s.cache == map[])
  }

  /** Both endpoints of the record resolve to an address. */
  predicate Resolvable(r: FlowRecord) {
    || (r.etype == EtherTypeIpv4 && |r.srcAddr| == 4 && |r.dstAddr| == 4)
    || (r.etype == EtherTypeIpv6 && |r.srcAddr| == 16 && |r.dstAddr| == 16)
  }

  /** An IPv4 record with an address of the wrong length. */
  predicate Malformed(r: FlowRecord) {
    r.etype == EtherTypeIpv4 && (|r.srcAddr| != 4 || |r.dstAddr| != 4)
  }

  /** The key a resolvable record is aggregated under: the window of its flow
      start, both classified endpoints, the VLANs and the protocol. */
  function RecordKey(r: FlowRecord, cidrs: seq<Cidr>): (k: AggregatedKey)
    requires Resolvable(r)
    ensures ParseLocation(r.etype, r.srcAddr, cidrs) == Success(Some(k.source))
    ensures ParseLocation(r.etype, r.dstAddr, cidrs) == Success(Some(k.target))
    ensures k.time % WindowSeconds == 0 && k.time <= r.timeFlowStart < k.time + WindowSeconds
    ensures k.srcVlan == r.srcVlan && k.dstVlan == r.dstVlan && k.proto == r.proto
  {
    var src := if r.etype == EtherTypeIpv4 then V4(r.srcAddr) else V6(r.srcAddr);
    var dst := if r.etype == EtherTypeIpv4 then V4(r.dstAddr) else V6(r.dstAddr);
    AggregatedKey(Bucket(r.timeFlowStart), Classify(src, cidrs), Classify(dst, cidrs), r.srcVlan, r.dstVlan, r.proto)
  }

  datatype Received = Continue(next: Aggregator) | Abort(reason: Fatal)

  /** The receive half of one loop iteration, the `match consumer.recv()` arm. The record's
      bytes are counted as transferred before either endpoint is classified;
      a malformed address is fatal; a record with an endpoint that yields no
      address is dropped without touching the cache or the size; otherwise it
      is merged under its key and the size grows by the overhead plus the
      payload length. A receive time beyond `i64::MAX` is fatal. */
  function Receive(s: Aggregator, cidrs: seq<Cidr>, d: Delivery): (r: Received)
    ensures r.Continue? ==> r.next.batchNumber == s.batchNumber
    ensures d.BusError? ==> r == Continue(s)
    ensures d.NoPayload? ==> r == Abort(PayloadMissing)
    ensures d.Undecodable? ==> r == Abort(DecodeFailed)
    ensures d.Decoded? && Malformed(d.record) ==> r == Abort(AddressRejected(InvalidAddrForEtype))
    ensures d.Decoded? && !Malformed(d.record) && !Resolvable(d.record) ==>
              r == Continue(s.(transferred := s.transferred + d.record.bytes))
    ensures d.Decoded? && Resolvable(d.record) && d.record.timeReceived > I64Max ==>
              r == Abort(ReceiveTimeOutOfRange)
    ensures d.Decoded? && Resolvable(d.record) && d.record.timeReceived <= I64Max ==>
              var rec := d.record;
              r == Continue(Aggregator(
                     Merge(s.cache, RecordKey(rec, cidrs), rec.packets, rec.bytes),
                     s.size + RecordOverhead + d.payloadLength,
                     s.batchNumber,
                     s.transferred + rec.bytes,
                     rec.timeReceived))
  {
    match d
    case BusError => Continue(s)
    case NoPayload => Abort(PayloadMissing)
    case Undecodable => Abort(DecodeFailed)
    case Decoded(rec, payloadLength) =>
      var counted := s.(transferred := s.transferred + rec.bytes);
      match ParseLocation(rec.etype, rec.srcAddr, cidrs)
      case Failure(e) => Abort(AddressRejected(e))
      case Success(None) => Continue(counted)
      case Success(Some(src)) =>
        match ParseLocation(rec.etype, rec.dstAddr, cidrs)
        case Failure(e) => Abort(AddressRejected(e))
        case Success(None) => Continue(counted)
        case Success(Some(dst)) =>
          var key := AggregatedKey(Bucket(rec.timeFlowStart), src, dst, rec.srcVlan, rec.dstVlan, rec.proto);
          var cache := Merge(s.cache, key, rec.packets, rec.bytes);
          if rec.timeReceived > I64Max then Abort(ReceiveTimeOutOfRange)
          else Continue(Aggregator(cache, s.size + RecordOverhead + payloadLength, s.batchNumber,
                                   counted.transferred, rec.timeReceived))
  }

  /** The due check, `size_of_cache >= batch_size`: the approximate size has reached the batch size. */
  predicate Due(s: Aggregator, batchSize: nat) {
    s.size >= batchSize
  }

  datatype Flush = NotDue | Flushed(next: Aggregator) | Failed(next: Aggregator)

  /** The flush half of one loop iteration, the `if size_of_cache >= batch_size` block. Below the
      threshold nothing is written. Otherwise the writer takes a batch number
      whatever the outcome; a failed write leaves cache and size exactly as
      they were, a successful one empties the cache and zeroes the size
      together. */
  function FlushCheck(s: Aggregator, batchSize: nat, writeSucceeds: bool): (f: Flush)
    ensures f.NotDue? <==> s.size < batchSize
    ensures f.Failed? <==> Due(s, batchSize) && !writeSucceeds
    ensures f.Failed? ==> f.next == s.(batchNumber := s.batchNumber + 1)
    ensures f.Flushed? ==> f.next == s.(cache := map[], size := 0, batchNumber := s.batchNumber + 1)
  {
    if !Due(s, batchSize) then NotDue
    else
      var counted := s.(batchNumber := Influx.NextBatchNumber(s.batchNumber));
      if writeSucceeds then Flushed(counted.(size := 0, cache := map[])) else Failed(counted)
  }

  /** What the loop did, in order: a write attempt (with the batch number it
      took, the cache and size it wrote from, and its outcome) or the
      consumption of one delivery. */
  datatype Action =
    | Write(batchNumber: nat, snapshot: Cache, size: nat, succeeded: bool)
    | Take(delivery: Delivery)

  /** Why a pass ended: the loop goes on, waits for an input that is not
      there, or the process ends. */
  datatype Halt = Running | Starved | Died(reason: Fatal)

  /** A pass of the loop body: the state after it, what it did, the inputs
      still pending, and whether the loop goes on. */
  datatype Pass = Pass(next: Aggregator, actions: seq<Action>, outcomes: seq<bool>, deliveries: seq<Delivery>, halt: Halt)

  /** One pass of the main `loop` body against the sink's pending
      write outcomes and the bus's pending deliveries. A failed write ends the
      pass at once (`continue`) without receiving; otherwise one delivery is
      received. */
  function Step(s: Aggregator, cfg: Config, outcomes: seq<bool>, deliveries: seq<Delivery>): (p: Pass)
    ensures p.halt.Running? ==> |p.outcomes| + |p.deliveries| < |outcomes| + |deliveries|
    ensures p.halt.Died? ==> Dies(p.actions)
  {
    var due := Due(s, cfg.batchSize);
    if due && |outcomes| == 0 then Pass(s, [], outcomes, deliveries, Starved)
    else
      var f := FlushCheck(s, cfg.batchSize, due && outcomes[0]);
      if f.Failed? then
        Pass(f.next, [Write(s.batchNumber, s.cache, s.size, false)], outcomes[1..], deliveries, Running)
      else
        var s1 := if f.Flushed? then f.next else s;
        var head := if f.Flushed? then [Write(s.batchNumber, s.cache, s.size, true)] else [];
        var rest := if f.Flushed? then outcomes[1..] else outcomes;
        if |deliveries| == 0 then Pass(s1, head, rest, deliveries, Starved)
        else
          match Receive(s1, cfg.cidrs, deliveries[0])
          case Abort(reason) => Pass(s1, head + [Take(deliveries[0])], rest, deliveries[1..], Died(reason))
          case Continue(s2) => Pass(s2, head + [Take(deliveries[0])], rest, deliveries[1..], Running)
  }

  /** The process ends only while receiving, never while writing: the last
      thing a dying loop did was take a delivery that the bus delivered. */
  predicate Dies(log: seq<Action>) {
    |log| > 0 && log[|log| - 1].Take? && !log[|log| - 1].delivery.BusError?
  }

  datatype Trace = Trace(final: Aggregator, log: seq<Action>, stopped: Option<Fatal>)

  /** The loop, pass after pass, until it starves or the process ends. */
  function Run(s: Aggregator, cfg: Config, outcomes: seq<bool>, deliveries: seq<Delivery>): (t: Trace)
    ensures t.stopped.Some? ==> Dies(t.log)
    decreases |outcomes| + |deliveries|
  {
    var p := Step(s, cfg, outcomes, deliveries);
    match p.halt
    case Running =>
      var t := Run(p.next, cfg, p.outcomes, p.deliveries);
      t.(log := p.actions + t.log)
    case Starved => Trace(p.next, p.actions, None)
    case Died(reason) => Trace(p.next, p.actions, Some(reason))
  }

  /** The deliveries consumed, in log order. */
  function Taken(log: seq<Action>): seq<Delivery> {
    if |log| == 0 then []
    else if log[0].Take? then [log[0].delivery] + Taken(log[1..])
    else Taken(log[1..])
  }

  /** The number of write attempts in a log. */
  function WriteCount(log: seq<Action>): nat {
    if |log| == 0 then 0
    else (if log[0].Write? then 1 else 0) + WriteCount(log[1..])
  }

  lemma {:induction false} TakenAppend(a: seq<Action>, b: seq<Action>)
    ensures Taken(a + b) == Taken(a) + Taken(b)
    ensures WriteCount(a + b) == WriteCount(a) + WriteCount(b)
    decreases |a|
  {
    if |a| > 0 {
      assert (a + b)[0] == a[0];
      assert (a + b)[1..] == a[1..] + b;
      TakenAppend(a[1..], b);
      if a[0].Take? {
        assert Taken(a + b) == [a[0].delivery] + (Taken(a[1..]) + Taken(b));
      }
    } else {
      assert a + b == b;
    }
  }

  /** Pairwise strictly increasing batch numbers, all within `[lo, hi)`. */
  ghost predicate NumbersWithin(log: seq<Action>, lo: nat, hi: nat) {
    && (forall i :: 0 <= i < |log| && log[i].Write? ==> lo <= log[i].batchNumber < hi)
    && (forall i, j :: 0 <= i < j < |log| && log[i].Write? && log[j].Write? ==>
          log[i].batchNumber < log[j].batchNumber)
  }

  /** A pass makes at most one write attempt, which takes the counter's value
      and advances it; it consumes one write outcome per attempt and takes
      deliveries from the front of the queue. */
  lemma StepBookkeeping(s: Aggregator, cfg: Config, outcomes: seq<bool>, deliveries: seq<Delivery>)
    ensures var p := Step(s, cfg, outcomes, deliveries);
            && p.next.batchNumber == s.batchNumber + WriteCount(p.actions)
            && WriteCount(p.actions) <= 1
            && NumbersWithin(p.actions, s.batchNumber, p.next.batchNumber)
            && |p.outcomes| + WriteCount(p.actions) == |outcomes|
            && Taken(p.actions) + p.deliveries == deliveries
  {
    var p := Step(s, cfg, outcomes, deliveries);
    var due := Due(s, cfg.batchSize);
    if due && |outcomes| == 0 {
    } else {
      var f := FlushCheck(s, cfg.batchSize, due && outcomes[0]);
      if f.Failed? {
        assert p.actions == [Write(s.batchNumber, s.cache, s.size, false)];
        assert WriteCount(p.actions[1..]) == 0;
      } else {
        var s1 := if f.Flushed? then f.next else s;
        assert s1.batchNumber == s.batchNumber + (if f.Flushed? then 1 else 0);
        var head := if f.Flushed? then [Write(s.batchNumber, s.cache, s.size, true)] else [];
        assert WriteCount(head) == (if f.Flushed? then 1 else 0) by {
          if f.Flushed? {
            assert WriteCount(head[1..]) == 0;
          }
        }
        if |deliveries| > 0 {
          var take := Take(deliveries[0]);
          assert p.actions == head + [take];
          assert p.next.batchNumber == s1.batchNumber;
          TakenAppend(head, [take]);
          assert Taken([take]) == [deliveries[0]];
          assert WriteCount([take]) == 0;
          assert deliveries == [deliveries[0]] + deliveries[1..];
        }
      }
    }
  }

  lemma NumbersWithinAppend(a: seq<Action>, b: seq<Action>, lo: nat, mid: nat, hi: nat)
    requires lo <= mid <= hi
    requires NumbersWithin(a, lo, mid) && NumbersWithin(b, mid, hi)
    ensures NumbersWithin(a + b, lo, hi)
  {
    var all := a + b;
    forall i | |a| <= i < |all|
      ensures all[i] == b[i - |a|]
    {
    }
  }

  /** Every write attempt takes the next batch number: the numbers in a run's
      log are strictly increasing, start at the counter's value on entry, and
      the counter ends advanced by exactly the number of attempts, failed
      ones included. */
  lemma {:induction false} RunBatchNumbers(s: Aggregator, cfg: Config, outcomes: seq<bool>, deliveries: seq<Delivery>)
    ensures var t := Run(s, cfg, outcomes, deliveries);
            && t.final.batchNumber == s.batchNumber + WriteCount(t.log)
            && NumbersWithin(t.log, s.batchNumber, t.final.batchNumber)
    decreases |outcomes| + |deliveries|
  {
    var p := Step(s, cfg, outcomes, deliveries);
    StepBookkeeping(s, cfg, outcomes, deliveries);
    if p.halt.Running? {
      var t := Run(p.next, cfg, p.outcomes, p.deliveries);
      RunBatchNumbers(p.next, cfg, p.outcomes, p.deliveries);
      TakenAppend(p.actions, t.log);
      NumbersWithinAppend(p.actions, t.log, s.batchNumber, p.next.batchNumber, t.final.batchNumber);
    }
  }

  /** The points a write attempt sends: the insert of its snapshot under the
      batch number it took. */
  function Written(a: Action): set<Influx.DataPoint>
    requires a.Write?
  {
    Influx.BatchOf(a.snapshot, a.batchNumber)
  }

  /** Every write attempt of a run, retries included, sends points whose tags
      differ from those of every other attempt's points, so no write in the
      sink overwrites an earlier one. */
  lemma RunBatchesNeverCollide(s: Aggregator, cfg: Config, outcomes: seq<bool>, deliveries: seq<Delivery>)
    ensures var log := Run(s, cfg, outcomes, deliveries).log;
            forall i, j :: 0 <= i < j < |log| && log[i].Write? && log[j].Write? ==>
              forall p, q :: p in Written(log[i]) && q in Written(log[j]) ==> p.tags != q.tags
  {
    RunBatchNumbers(s, cfg, outcomes, deliveries);
    var log := Run(s, cfg, outcomes, deliveries).log;
    forall i, j | 0 <= i < j < |log| && log[i].Write? && log[j].Write?
      ensures forall p, q :: p in Written(log[i]) && q in Written(log[j]) ==> p.tags != q.tags
    {
      Influx.BatchesNeverCollide(log[i].snapshot, log[i].batchNumber, log[j].snapshot, log[j].batchNumber);
    }
  }

  /** A run that neither died nor could go on stopped for want of input: it
      consumed every delivery, or a write was due with no outcome left. */
  lemma {:induction false} RunStarvesOnlyOnExhaustion(s: Aggregator, cfg: Config, outcomes: seq<bool>, deliveries: seq<Delivery>)
    ensures var t := Run(s, cfg, outcomes, deliveries);
            t.stopped.None? ==>
              || Taken(t.log) == deliveries
              || (WriteCount(t.log) == |outcomes| && Due(t.final, cfg.batchSize))
    decreases |outcomes| + |deliveries|
  {
    var p := Step(s, cfg, outcomes, deliveries);
    StepBookkeeping(s, cfg, outcomes, deliveries);
    if p.halt.Running? {
      var t := Run(p.next, cfg, p.outcomes, p.deliveries);
      RunStarvesOnlyOnExhaustion(p.next, cfg, p.outcomes, p.deliveries);
      TakenAppend(p.actions, t.log);
    }
  }

  /** The loop consumes deliveries strictly in bus order, never skipping or
      repeating one; in particular a failed write consumes none. */
  lemma {:induction false} RunTakesInOrder(s: Aggregator, cfg: Config, outcomes: seq<bool>, deliveries: seq<Delivery>)
    ensures var taken := Taken(Run(s, cfg, outcomes, deliveries).log);
            |taken| <= |deliveries| && taken == deliveries[..|taken|]
    decreases |outcomes| + |deliveries|
  {
    var p := Step(s, cfg, outcomes, deliveries);
    StepBookkeeping(s, cfg, outcomes, deliveries);
    if p.halt.Running? {
      var t := Run(p.next, cfg, p.outcomes, p.deliveries);
      RunTakesInOrder(p.next, cfg, p.outcomes, p.deliveries);
      TakenAppend(p.actions, t.log);
    }
  }

  /** The shape of a write log: writes happen only at or above the batch
      size; a failed write is followed (if by anything) by another write of
      the same cache and size, before any delivery is taken; a successful
      write is followed (if by anything) by a receive. */
  ghost predicate LogShape(log: seq<Action>, batchSize: nat) {
    && (forall i :: 0 <= i < |log| && log[i].Write? ==> log[i].size >= batchSize)
    && (forall i :: 0 <= i < |log| - 1 && log[i].Write? && !log[i].succeeded ==>
          log[i + 1].Write? && log[i + 1].snapshot == log[i].snapshot && log[i + 1].size == log[i].size)
    && (forall i :: 0 <= i < |log| - 1 && log[i].Write? && log[i].succeeded ==> log[i + 1].Take?)
  }

  /** Within one pass: a due state with an outcome pending starts with a
      write of exactly its cache and size; a pass that ends with a failed
      write leaves cache and size as they were and the loop due again; a pass
      that ends with a successful write has nothing to receive. */
  lemma StepShape(s: Aggregator, cfg: Config, outcomes: seq<bool>, deliveries: seq<Delivery>)
    ensures var p := Step(s, cfg, outcomes, deliveries);
            && LogShape(p.actions, cfg.batchSize)
            && (Due(s, cfg.batchSize) && |outcomes| > 0 <==> |p.actions| > 0 && p.actions[0].Write?)
            && (Due(s, cfg.batchSize) && |outcomes| > 0 ==>
                  p.actions[0] == Write(s.batchNumber, s.cache, s.size, outcomes[0]))
            && (|p.actions| > 0 && p.actions[|p.actions| - 1].Write? ==>
                  var w := p.actions[|p.actions| - 1];
                  if w.succeeded then p.halt.Starved?
                  else p.halt.Running? && p.next.cache == s.cache == w.snapshot
                       && p.next.size == s.size == w.size && Due(p.next, cfg.batchSize))
  {
    var due := Due(s, cfg.batchSize);
    if !(due && |outcomes| == 0) {
      var f := FlushCheck(s, cfg.batchSize, due && outcomes[0]);
      if !f.Failed? && |deliveries| > 0 {
        var head := if f.Flushed? then [Write(s.batchNumber, s.cache, s.size, true)] else [];
        assert Step(s, cfg, outcomes, deliveries).actions == head + [Take(deliveries[0])];
      }
    }
  }

  lemma LogShapeAppend(a: seq<Action>, b: seq<Action>, batchSize: nat)
    requires LogShape(a, batchSize) && LogShape(b, batchSize)
    requires |a| > 0 && |b| > 0 && a[|a| - 1].Write? ==>
               if a[|a| - 1].succeeded then b[0].Take?
               else b[0].Write? && b[0].snapshot == a[|a| - 1].snapshot && b[0].size == a[|a| - 1].size
    ensures LogShape(a + b, batchSize)
  {
    var all := a + b;
    forall i | |a| <= i < |all|
      ensures all[i] == b[i - |a|]
    {
    }
  }

  /** The whole log of a run has the shape of `LogShape`, and from a due
      state with an outcome pending it opens with a write of that state's
      cache and size. */
  lemma {:induction false} RunLogShape(s: Aggregator, cfg: Config, outcomes: seq<bool>, deliveries: seq<Delivery>)
    ensures var t := Run(s, cfg, outcomes, deliveries);
            && LogShape(t.log, cfg.batchSize)
            && (Due(s, cfg.batchSize) && |outcomes| > 0 ==>
                  |t.log| > 0 && t.log[0] == Write(s.batchNumber, s.cache, s.size, outcomes[0]))
    decreases |outcomes| + |deliveries|
  {
    var p := Step(s, cfg, outcomes, deliveries);
    StepShape(s, cfg, outcomes, deliveries);
    if p.halt.Running? {
      var t := Run(p.next, cfg, p.outcomes, p.deliveries);
      RunLogShape(p.next, cfg, p.outcomes, p.deliveries);
      StepShape(p.next, cfg, p.outcomes, p.deliveries);
      if |p.actions| > 0 && |t.log| > 0 && p.actions[|p.actions| - 1].Write? {
        assert |p.outcomes| > 0;
      }
      LogShapeAppend(p.actions, t.log, cfg.batchSize);
      assert t.log == [] ==> p.actions + t.log == p.actions;
    }
  }

  /** A merge adds at most one entry. */
  lemma MergeAddsAtMostOne(cache: Cache, key: AggregatedKey, packets: nat, bytes: nat)
    ensures |Merge(cache, key, packets, bytes)| <= |cache| + 1
  {
    var m := Merge(cache, key, packets, bytes);
    if key in cache {
      assert m.Keys == cache.Keys;
    } else {
      assert m.Keys == cache.Keys + {key};
    }
  }

  /** Every pass keeps the size counter consistent with the cache: they are
      reset only together, and each merge pays at least the overhead. */
  lemma StepKeepsConsistency(s: Aggregator, cfg: Config, outcomes: seq<bool>, deliveries: seq<Delivery>)
    requires Consistent(s)
    ensures Consistent(Step(s, cfg, outcomes, deliveries).next)
  {
    var due := Due(s, cfg.batchSize);
    if !(due && |outcomes| == 0) {
      var f := FlushCheck(s, cfg.batchSize, due && outcomes[0]);
      var s1 := if f.NotDue? then s else f.next;
      assert Consistent(s1);
      if !f.Failed? && |deliveries| > 0 && deliveries[0].Decoded? && Resolvable(deliveries[0].record) {
        var rec := deliveries[0].record;
        MergeAddsAtMostOne(s1.cache, RecordKey(rec, cfg.cidrs), rec.packets, rec.bytes);
      }
    }
  }

  lemma {:induction false} RunKeepsConsistency(s: Aggregator, cfg: Config, outcomes: seq<bool>, deliveries: seq<Delivery>)
    requires Consistent(s)
    ensures Consistent(Run(s, cfg, outcomes, deliveries).final)
    decreases |outcomes| + |deliveries|
  {
    var p := Step(s, cfg, outcomes, deliveries);
    StepKeepsConsistency(s, cfg, outcomes, deliveries);
    if p.halt.Running? {
      RunKeepsConsistency(p.next, cfg, p.outcomes, p.deliveries);
    }
  }

  /** An IPv4 flow of 100 bytes in one packet between two fixed hosts. */
  function SampleFlow(proto: u32, start: nat): FlowRecord {
    FlowRecord(EtherTypeIpv4, [10, 0, 0, 1], [10, 0, 0, 2], 1, 2, proto, 100, 1, start, start)
  }

  /** The first scenario's inputs: batch size 100, no ranges, and four
      records of payload 36 whose sizes add up to 40, 80, 120 and 160. */
  const FlushConfig: Config := Config(100, [])
  const FlushDeliveries: seq<Delivery> :=
    [Decoded(SampleFlow(6, 600), 36), Decoded(SampleFlow(6, 650), 36),
     Decoded(SampleFlow(17, 700), 36), Decoded(SampleFlow(6, 1000), 36)]

  const KeyTcp600: AggregatedKey := AggregatedKey(600, Outside, Outside, 1, 2, 6)
  const KeyUdp600: AggregatedKey := AggregatedKey(600, Outside, Outside, 1, 2, 17)
  const KeyTcp900: AggregatedKey := AggregatedKey(900, Outside, Outside, 1, 2, 6)

  /** The cache once the first three records are merged. */
  const FirstBatch: Cache := map[KeyTcp600 := CommunicationData(2, 200), KeyUdp600 := CommunicationData(1, 100)]

  lemma FlushScenarioReceives()
    ensures Receive(Initial, [], FlushDeliveries[0])
            == Continue(Aggregator(map[KeyTcp600 := CommunicationData(1, 100)], 40, 0, 100, 600))
    ensures Receive(Aggregator(map[KeyTcp600 := CommunicationData(1, 100)], 40, 0, 100, 600), [], FlushDeliveries[1])
            == Continue(Aggregator(map[KeyTcp600 := CommunicationData(2, 200)], 80, 0, 200, 650))
    ensures Receive(Aggregator(map[KeyTcp600 := CommunicationData(2, 200)], 80, 0, 200, 650), [], FlushDeliveries[2])
            == Continue(Aggregator(FirstBatch, 120, 0, 300, 700))
    ensures Receive(Aggregator(map[], 0, 1, 300, 700), [], FlushDeliveries[3])
            == Continue(Aggregator(map[KeyTcp900 := CommunicationData(1, 100)], 40, 1, 400, 1000))
  {
    assert Bucket(600) == 600 && Bucket(650) == 600 && Bucket(700) == 600 && Bucket(1000) == 900;
  }

  lemma FlushScenarioSteps()
    ensures var ds := FlushDeliveries;
      && Step(Initial, FlushConfig, [true], ds)
         == Pass(Aggregator(map[KeyTcp600 := CommunicationData(1, 100)], 40, 0, 100, 600), [Take(ds[0])], [true], ds[1..], Running)
      && Step(Aggregator(map[KeyTcp600 := CommunicationData(1, 100)], 40, 0, 100, 600), FlushConfig, [true], ds[1..])
         == Pass(Aggregator(map[KeyTcp600 := CommunicationData(2, 200)], 80, 0, 200, 650), [Take(ds[1])], [true], ds[2..], Running)
      && Step(Aggregator(map[KeyTcp600 := CommunicationData(2, 200)], 80, 0, 200, 650), FlushConfig, [true], ds[2..])
         == Pass(Aggregator(FirstBatch, 120, 0, 300, 700), [Take(ds[2])], [true], ds[3..], Running)
      && Step(Aggregator(FirstBatch, 120, 0, 300, 700), FlushConfig, [true], ds[3..])
         == Pass(Aggregator(map[KeyTcp900 := CommunicationData(1, 100)], 40, 1, 400, 1000),
                 [Write(0, FirstBatch, 120, true), Take(ds[3])], [], [], Running)
      && Step(Aggregator(map[KeyTcp900 := CommunicationData(1, 100)], 40, 1, 400, 1000), FlushConfig, [], [])
         == Pass(Aggregator(map[KeyTcp900 := CommunicationData(1, 100)], 40, 1, 400, 1000), [], [], [], Starved)
  {
    FlushScenarioReceives();
    assert FlushDeliveries[3..] == [FlushDeliveries[3]];
    assert FlushCheck(Aggregator(FirstBatch, 120, 0, 300, 700), 100, true) == Flushed(Aggregator(map[], 0, 1, 300, 700));
  }

  /** Batch size 100: three records bring the size to 40, 80 and 120; exactly
      one write, of the entries of all three (two keys, as the first two share
      a window and a protocol), happens before the fourth record is taken,
      which then starts a fresh cache. */
  lemma ScenarioFlushBeforeFourthRecord()
    ensures var ds := FlushDeliveries;
            var t := Run(Initial, FlushConfig, [true], ds);
            && t.log == [Take(ds[0]), Take(ds[1]), Take(ds[2]), Write(0, FirstBatch, 120, true), Take(ds[3])]
            && t.final.cache == map[KeyTcp900 := CommunicationData(1, 100)]
            && t.final.size == 40
            && t.final.batchNumber == 1
            && t.stopped == None
  {
    var ds := FlushDeliveries;
    FlushScenarioSteps();
    var s1 := Aggregator(map[KeyTcp600 := CommunicationData(1, 100)], 40, 0, 100, 600);
    var s2 := Aggregator(map[KeyTcp600 := CommunicationData(2, 200)], 80, 0, 200, 650);
    var s3 := Aggregator(FirstBatch, 120, 0, 300, 700);
    var s4 := Aggregator(map[KeyTcp900 := CommunicationData(1, 100)], 40, 1, 400, 1000);
    var t3 := Run(s3, FlushConfig, [true], ds[3..]);
    assert Run(s4, FlushConfig, [], []) == Trace(s4, [], None);
    assert t3 == Trace(s4, [Write(0, FirstBatch, 120, true), Take(ds[3])], None);
    var t2 := Run(s2, FlushConfig, [true], ds[2..]);
    assert t2 == Trace(s4, [Take(ds[2])] + t3.log, None);
    var t1 := Run(s1, FlushConfig, [true], ds[1..]);
    assert t1 == Trace(s4, [Take(ds[1])] + t2.log, None);
    assert Run(Initial, FlushConfig, [true], ds) == Trace(s4, [Take(ds[0])] + t1.log, None);
  }

  /** Two records that differ only in protocol land in two entries, each with
      its own record's counts. */
  lemma ScenarioDistinctProtocols()
    ensures var t := Run(Initial, Config(1000, []), [], [Decoded(SampleFlow(6, 600), 36), Decoded(SampleFlow(17, 600), 36)]);
            t.final.cache == map[AggregatedKey(600, Outside, Outside, 1, 2, 6) := CommunicationData(1, 100),
                                 AggregatedKey(600, Outside, Outside, 1, 2, 17) := CommunicationData(1, 100)]
  {
    var cfg := Config(1000, []);
    var ds := [Decoded(SampleFlow(6, 600), 36), Decoded(SampleFlow(17, 600), 36)];
    var ka := AggregatedKey(600, Outside, Outside, 1, 2, 6);
    var kb := AggregatedKey(600, Outside, Outside, 1, 2, 17);
    assert Bucket(600) == 600;
    var s1 := Aggregator(map[ka := CommunicationData(1, 100)], 40, 0, 100, 600);
    var s2 := Aggregator(map[ka := CommunicationData(1, 100), kb := CommunicationData(1, 100)], 80, 0, 200, 600);
    assert Step(Initial, cfg, [], ds) == Pass(s1, [Take(ds[0])], [], ds[1..], Running);
    assert Step(s1, cfg, [], ds[1..]) == Pass(s2, [Take(ds[1])], [], [], Running);
    assert Step(s2, cfg, [], []) == Pass(s2, [], [], [], Starved);
  }
}

=== FILE: ip.dfy ===
/** IP addresses as the collector sees them (`std::net::IpAddr`), CIDR ranges
    (`cidr_utils::cidr::IpCidr`) with the prefix-match semantics of RFC 4632,
    and the textual form of an address that `IpAddr::to_string` produces
    (dotted decimal for IPv4; for IPv6 the recommended form of RFC 5952,
    section 4, with the IPv4-mapped form of section 5). */
module Ip {
  import opened Text

  type byte = b: int | 0 <= b < 256

  type Octets4 = s: seq<byte> | |s| == 4 witness [0, 0, 0, 0]

  type Octets16 = s: seq<byte> | |s| == 16 witness [0, 0, 0, 0, 0, 0, 0, 0, 0, 0, 0, 0, 0, 0, 0, 0]

  /** An address keeps its octets in network order, exactly as they arrived. */
  datatype IpAddr = V4(v4: Octets4) | V6(v6: Octets16)

  function Octets(ip: IpAddr): (o: seq<byte>)
    ensures |o| == Width(ip) / 8
  {
    match ip
    case V4(o) => o
    case V6(o) => o
  }

  /** Number of address bits: 32 or 128. */
  function Width(ip: IpAddr): nat {
    if ip.V4? then 32 else 128
  }

  function Pow2(n: nat): (p: nat)
    ensures p >= 1
  {
    if n == 0 then 1 else 2 * Pow2(n - 1)
  }

  /** Bit `i` of an octet string, counting from the most significant bit of the first octet. */
  function Bit(o: seq<byte>, i: nat): (b: nat)
    requires i < 8 * |o|
    ensures b < 2
  {
    (o[i / 8] / Pow2(7 - i % 8)) % 2
  }

  /** A range: the network address and the prefix length. A parsed range never
      has a prefix longer than its address family allows. */
  datatype Cidr = Cidr(network: IpAddr, prefix: nat)

  predicate ValidCidr(c: Cidr) {
    c.prefix <= Width(c.network)
  }

  /** `IpCidr::contains`: same address family and the first `prefix` bits agree.
      The bits of the network address past the prefix play no part. */
  predicate Contains(c: Cidr, ip: IpAddr) {
    && c.network.V4? == ip.V4?
    && c.prefix <= Width(ip)
    && forall i :: 0 <= i < c.prefix ==> Bit(Octets(c.network), i) == Bit(Octets(ip), i)
  }

  /** A well-formed range contains its own network address. */
  lemma ContainsNetwork(c: Cidr)
    requires ValidCidr(c)
    ensures Contains(c, c.network)
  {
  }

  /** A `/0` range contains exactly the addresses of its family, and no
      range contains an address of the other family. */
  lemma ContainsFamily(c: Cidr, ip: IpAddr)
    ensures Contains(Cidr(c.network, 0), ip) <==> c.network.V4? == ip.V4?
    ensures c.network.V4? != ip.V4? ==> !Contains(c, ip)
  {
  }

  /** Shortening the prefix only widens a range. */
  lemma ContainsWidens(network: IpAddr, p: nat, q: nat, ip: IpAddr)
    requires q <= p
    ensures Contains(Cidr(network, p), ip) ==> Contains(Cidr(network, q), ip)
  {
  }

  /** Characters that can occur in an address's text. */
  predicate IsAddrChar(c: char) {
    IsHexDigit(c) || c == ':' || c == '.'
  }

  /** Dotted-decimal text of an IPv4 address. */
  function V4Text(o: Octets4): (s: string)
    ensures forall i :: 0 <= i < |s| ==> IsDigit(s[i]) || s[i] == '.'
  {
    Decimal(o[0]) + "." + Decimal(o[1]) + "." + Decimal(o[2]) + "." + Decimal(o[3])
  }

  /** The eight 16-bit groups of an IPv6 address, big-endian. */
  function Segments(o: Octets16): (g: seq<nat>)
    ensures |g| == 8
    ensures forall i :: 0 <= i < 8 ==> g[i] == (o[2 * i] as int) * 256 + o[2 * i + 1] as int
  {
    seq(8, i requires 0 <= i < 8 => (o[2 * i] as int) * 256 + o[2 * i + 1] as int)
  }

  /** `::ffff:a.b.c.d` — the IPv4-mapped block of RFC 4291, section 2.5.5.2. */
  predicate IsV4Mapped(o: Octets16) {
    && (forall i :: 0 <= i < 10 ==> o[i] == 0)
    && o[10] == 255 && o[11] == 255
  }

  /** Groups separated by ':', each in lower-case hex without leading zeros. */
  function JoinHex(g: seq<nat>): (s: string)
    ensures forall i :: 0 <= i < |s| ==> IsHexDigit(s[i]) || s[i] == ':'
  {
    if |g| == 0 then []
    else if |g| == 1 then Hex(g[0])
    else Hex(g[0]) + ":" + JoinHex(g[1..])
  }

  /** A run of groups, `[start, start + len)`. */
  datatype Span = Span(start: nat, len: nat)

  /** Every group in `[a, b)` is zero. */
  predicate ZeroRun(g: seq<nat>, a: nat, b: nat) {
    a <= b <= |g| && forall j :: a <= j < b ==> g[j] == 0
  }

  /** What the scan knows after looking at `g[..i]`: `longest` is the first
      of the longest zero runs so far and `current` is the maximal zero run
      ending at `i`. */
  predicate ScanInvariant(g: seq<nat>, i: nat, longest: Span, current: Span) {
    && i <= |g|
    && longest.start + longest.len <= i
    && ZeroRun(g, longest.start, longest.start + longest.len)
    && current.len <= longest.len
    && (current.len > 0 ==>
          && current.start + current.len == i
          && ZeroRun(g, current.start, i)
          && (current.start == 0 || g[current.start - 1] != 0))
    && (current.len == 0 ==> i == 0 || g[i - 1] != 0)
    && (forall a, b :: 0 <= a <= b <= i && ZeroRun(g, a, b) ==> b - a <= longest.len)
    && FirstOfLongest(g, i, longest)
  }

  /** No zero run of the same length lies wholly before `r` within `g[..i]`. */
  predicate FirstOfLongest(g: seq<nat>, i: nat, r: Span) {
    r.len > 0 ==> forall a, b :: 0 <= a <= b <= i && b - a == r.len && ZeroRun(g, a, b) ==> r.start <= a
  }

  /** The single left-to-right scan for the longest run of zero groups: a
      run replaces the longest one only when strictly longer, so the first
      of equally long runs is kept. */
  function ZeroScan(g: seq<nat>, i: nat, longest: Span, current: Span): (r: Span)
    requires ScanInvariant(g, i, longest, current)
    ensures ZeroRun(g, r.start, r.start + r.len)
    ensures forall a, b :: 0 <= a <= b <= |g| && ZeroRun(g, a, b) ==> b - a <= r.len
    ensures FirstOfLongest(g, |g|, r)
    decreases |g| - i
  {
    if i == |g| then longest
    else if g[i] == 0 then
      var cur := if current.len == 0 then Span(i, 1) else Span(current.start, current.len + 1);
      var longest' := if cur.len > longest.len then cur else longest;
      ScanStepZero(g, i, longest, current, cur, longest');
      ZeroScan(g, i + 1, longest', cur)
    else
      ScanStepNonZero(g, i, longest, current);
      ZeroScan(g, i + 1, longest, Span(0, 0))
  }

  lemma ScanStepZero(g: seq<nat>, i: nat, longest: Span, current: Span, cur: Span, longest': Span)
    requires ScanInvariant(g, i, longest, current)
    requires i < |g| && g[i] == 0
    requires cur == if current.len == 0 then Span(i, 1) else Span(current.start, current.len + 1)
    requires longest' == if cur.len > longest.len then cur else longest
    ensures ScanInvariant(g, i + 1, longest', cur)
  {
    forall a, b | 0 <= a <= b <= i + 1 && ZeroRun(g, a, b)
      ensures b - a <= longest'.len
    {
      if b == i + 1 && a < b {
        assert a >= cur.start;
      } else if b <= i {
        assert ZeroRun(g, a, b);
      } else {
        assert ZeroRun(g, a, a);
      }
    }
    assert FirstOfLongest(g, i, longest);
    if longest'.len > 0 {
      forall a, b | 0 <= a <= b <= i + 1 && b - a == longest'.len && ZeroRun(g, a, b)
        ensures longest'.start <= a
      {
        if b <= i {
          assert ZeroRun(g, a, b);
        }
      }
    }
  }

  lemma ScanStepNonZero(g: seq<nat>, i: nat, longest: Span, current: Span)
    requires ScanInvariant(g, i, longest, current)
    requires i < |g| && g[i] != 0
    ensures ScanInvariant(g, i + 1, longest, Span(0, 0))
  {
    forall a, b | 0 <= a <= b <= i + 1 && ZeroRun(g, a, b)
      ensures b - a <= longest.len
    {
      if b <= i {
        assert ZeroRun(g, a, b);
      }
    }
    assert FirstOfLongest(g, i, longest);
    if longest.len > 0 {
      forall a, b | 0 <= a <= b <= i + 1 && b - a == longest.len && ZeroRun(g, a, b)
        ensures longest.start <= a
      {
        if b <= i {
          assert ZeroRun(g, a, b);
        }
      }
    }
  }

  /** The run that `::` replaces: the longest run of zero groups, and the
      first of them when several are equally long (RFC 5952, section 4.2.3). */
  function LongestZeroRun(g: seq<nat>): (r: Span)
    ensures ZeroRun(g, r.start, r.start + r.len)
    ensures forall a, b :: 0 <= a <= b <= |g| && ZeroRun(g, a, b) ==> b - a <= r.len
    ensures r.len > 0 ==> forall a, b :: 0 <= a <= b <= |g| && b - a == r.len && ZeroRun(g, a, b) ==> r.start <= a
  {
    var r := ZeroScan(g, 0, Span(0, 0), Span(0, 0));
    assert FirstOfLongest(g, |g|, r);
    r
  }

  /** The hex text of the groups around the tie example's `::`. */
  lemma TieGroupsText()
    ensures JoinHex([1]) == "1"
    ensures JoinHex([1, 0, 0, 1, 1]) == "1:0:0:1:1"
  {
    assert Hex(0) == "0" && Hex(1) == "1";
    assert JoinHex([1, 1]) == "1:1" by {
      assert [1, 1][1..] == [1];
    }
    assert JoinHex([0, 1, 1]) == "0:1:1" by {
      assert [0, 1, 1][1..] == [1, 1];
    }
    assert JoinHex([0, 0, 1, 1]) == "0:0:1:1" by {
      assert [0, 0, 1, 1][1..] == [0, 1, 1];
    }
    assert [1, 0, 0, 1, 1][1..] == [0, 0, 1, 1];
  }

  /** Of two equally long runs of zero groups, the first is compressed:
      groups 1:0:0:1:0:0:1:1 have their `::` at group 1, not at group 4. */
  lemma TieGoesToFirstRun()
    ensures LongestZeroRun([1, 0, 0, 1, 0, 0, 1, 1]) == Span(1, 2)
  {
    TieSpan([1, 0, 0, 1, 0, 0, 1, 1]);
  }

  /** The tie example, argued from the contract of `LongestZeroRun` alone. */
  lemma TieSpan(g: seq<nat>)
    requires |g| == 8 && g[0] != 0 && g[1] == 0 && g[2] == 0 && g[3] != 0
    requires g[4] == 0 && g[5] == 0 && g[6] != 0 && g[7] != 0
    ensures LongestZeroRun(g) == Span(1, 2)
  {
    var r := LongestZeroRun(g);
    assert ZeroRun(g, 1, 3);
    assert r.len <= 2 by {
      if r.len > 2 {
        assert false;
      }
    }
    assert ZeroRun(g, 1, 3) && 3 - 1 == r.len;
    assert g[r.start] == 0;
  }

  /** The address with groups 1:0:0:1:0:0:1:1 is written `1::1:0:0:1:1`,
      not `1:0:0:1::1:1`. */
  lemma TieText(o: Octets16)
    requires o == [0, 1, 0, 0, 0, 0, 0, 1, 0, 0, 0, 0, 0, 1, 0, 1]
    ensures V6Text(o) == "1::1:0:0:1:1"
  {
    assert !IsV4Mapped(o) by {
      assert o[1] != 0;
    }
    var g := Segments(o);
    assert g[0] == 1 && g[1] == 0 && g[2] == 0 && g[3] == 1;
    assert g[4] == 0 && g[5] == 0 && g[6] == 1 && g[7] == 1;
    TieSpan(g);
    CompressedText(o, g, Span(1, 2));
    assert g[..1] == [1];
    assert g[3..] == [1, 0, 0, 1, 1];
    TieGroupsText();
  }

  /** The text of an unmapped address whose longest zero run spans at least two groups. */
  lemma CompressedText(o: Octets16, g: seq<nat>, z: Span)
    requires !IsV4Mapped(o) && Segments(o) == g && LongestZeroRun(g) == z && z.len > 1
    ensures V6Text(o) == JoinHex(g[..z.start]) + "::" + JoinHex(g[z.start + z.len..])
  {
  }

  /** RFC 5952 text of an IPv6 address: the IPv4-mapped form, or the groups
      with a longest run of at least two zero groups replaced by `::`. */
  function V6Text(o: Octets16): (s: string)
    ensures forall i :: 0 <= i < |s| ==> IsAddrChar(s[i])
  {
    if IsV4Mapped(o) then "::ffff:" + V4Text(o[12..])
    else
      var g := Segments(o);
      var z := LongestZeroRun(g);
      if z.len > 1 then JoinHex(g[..z.start]) + "::" + JoinHex(g[z.start + z.len..])
      else JoinHex(g)
  }

  /** `IpAddr::to_string`. */
  function IpText(ip: IpAddr): (s: string)
    ensures forall i :: 0 <= i < |s| ==> IsAddrChar(s[i])
  {
    match ip
    case V4(o) => V4Text(o)
    case V6(o) => V6Text(o)
  }
}

=== FILE: text.dfy ===
/** The textual forms of unsigned integers that the collector writes: decimal
    (`u32::to_string`, `i64::to_string` of a non-negative value, the octets of
    a dotted IPv4 address) and lower-case hexadecimal (the groups of an IPv6
    address). Both omit leading zeros. */
module Text {

  predicate IsDigit(c: char) {
    '0' <= c <= '9'
  }

  predicate IsHexDigit(c: char) {
    IsDigit(c) || 'a' <= c <= 'f'
  }

  function DigitChar(d: nat): (c: char)
    requires d < 10
    ensures IsDigit(c)
    ensures c as int - '0' as int == d
  {
    "0123456789"[d]
  }

  function DigitValue(c: char): (d: nat)
    requires IsDigit(c)
    ensures d < 10
  {
    c as int - '0' as int
  }

  function HexChar(d: nat): (c: char)
    requires d < 16
    ensures IsHexDigit(c)
  {
    "0123456789abcdef"[d]
  }

  /** A non-empty string of decimal digits. */
  predicate IsDecimal(s: string) {
    |s| >= 1 && forall i :: 0 <= i < |s| ==> IsDigit(s[i])
  }

  /** Decimal text of `n`, most significant digit first. */
  function Decimal(n: nat): (s: string)
    ensures IsDecimal(s)
    ensures s[0] == '0' ==> n == 0 && |s| == 1
    decreases n
  {
    if n < 10 then [DigitChar(n)] else Decimal(n / 10) + [DigitChar(n % 10)]
  }

  /** Reads a string of decimal digits back as a number (the empty string reads as 0). */
  function ParseDecimal(s: string): (n: nat)
    requires forall i :: 0 <= i < |s| ==> IsDigit(s[i])
    decreases |s|
  {
    if |s| == 0 then 0 else ParseDecimal(s[..|s| - 1]) * 10 + DigitValue(s[|s| - 1])
  }

  /** Decimal text round-trips: the tag value written for a number reads back as that number. */
  lemma {:induction false} DecimalRoundTrip(n: nat)
    ensures ParseDecimal(Decimal(n)) == n
    decreases n
  {
    var s := Decimal(n);
    if n < 10 {
      assert s[..|s| - 1] == [];
    } else {
      DecimalRoundTrip(n / 10);
      assert s[..|s| - 1] == Decimal(n / 10);
      assert DigitValue(s[|s| - 1]) == n % 10;
    }
  }

  /** Distinct numbers have distinct decimal texts. */
  lemma DecimalInjective(m: nat, n: nat)
    ensures Decimal(m) == Decimal(n) <==> m == n
  {
    if Decimal(m) == Decimal(n) {
      DecimalRoundTrip(m);
      DecimalRoundTrip(n);
    }
  }

  /** Lower-case hexadecimal text of `n`, as `{:x}` prints it. */
  function Hex(n: nat): (s: string)
    ensures |s| >= 1
    ensures forall i :: 0 <= i < |s| ==> IsHexDigit(s[i])
    ensures s[0] == '0' ==> n == 0 && |s| == 1
    decreases n
  {
    if n < 16 then [HexChar(n)] else Hex(n / 16) + [HexChar(n % 16)]
  }
}

=== FILE: util.dfy ===
/** The aggregation key and its parts, and the classification of a raw
    flow-record address as inside or outside the configured ranges
    (src/util.rs). */
module Util {
  import opened Wrappers
  import opened Ip

  type u32 = x: int | 0 <= x < 0x1_0000_0000

  /** Which side of the configured ranges an endpoint lies on. */
  datatype Location = Inside(ip: IpAddr) | Outside

  /** The aggregation granularity: window start, both classified endpoints,
      both VLANs and the protocol. */
  datatype AggregatedKey = AggregatedKey(
    time: nat,
    source: Location,
    target: Location,
    srcVlan: u32,
    dstVlan: u32,
    proto: u32)

  /** The counters accumulated under one key. */
  datatype CommunicationData = CommunicationData(packets: nat, bytes: nat)

  /** EtherType values (IEEE 802 EtherType registry). */
  const EtherTypeIpv4: u32 := 0x0800
  const EtherTypeIpv6: u32 := 0x86DD
  const EtherTypeArp: u32 := 0x0806

  /** The one error the classifier raises: the address bytes do not fit the EtherType. */
  datatype AddrError = InvalidAddrForEtype

  /** `parse_ip`. An IPv4 EtherType demands exactly four bytes and anything
      else is an error; the IPv6 arm is guarded by the length, so a wrong-length
      IPv6 address falls through to the catch-all arm like ARP and every
      unknown EtherType, and yields no address rather than an error. */
  function ParseIp(etype: u32, addr: seq<byte>): (r: Result<Option<IpAddr>, AddrError>)
    ensures r.Failure? <==> etype == EtherTypeIpv4 && |addr| != 4
    ensures r == Success(None) <==> etype != EtherTypeIpv4 && !(etype == EtherTypeIpv6 && |addr| == 16)
    ensures r.Success? && r.value.Some? ==>
              && Octets(r.value.value) == addr
              && (r.value.value.V4? <==> etype == EtherTypeIpv4)
  {
    if etype == EtherTypeIpv4 then
      if |addr| == 4 then Success(Some(V4(addr))) else Failure(InvalidAddrForEtype)
    else if etype == EtherTypeIpv6 && |addr| == 16 then
      Success(Some(V6(addr)))
    else if etype == EtherTypeArp then
      Success(None)
    else
      Success(None)
  }

  /** The scan over the configured ranges in their configured order: the
      first range that contains the address gives `Inside(ip)`, and an
      exhausted (or empty) list gives `Outside`. */
  function Classify(ip: IpAddr, cidrs: seq<Cidr>): (l: Location)
    ensures l == Inside(ip) <==> exists i :: 0 <= i < |cidrs| && Contains(cidrs[i], ip)
    ensures l == Outside <==> forall i :: 0 <= i < |cidrs| ==> !Contains(cidrs[i], ip)
  {
    if |cidrs| == 0 then Outside
    else if Contains(cidrs[0], ip) then Inside(ip)
    else
      var l := Classify(ip, cidrs[1..]);
      assert forall i :: 1 <= i < |cidrs| ==> cidrs[i] == cidrs[1..][i - 1];
      l
  }

  /** `parse_location`: errors of `parse_ip` propagate unchanged, "no
      address" stays "no address", and a resolved address is classified. */
  function ParseLocation(etype: u32, addr: seq<byte>, cidrs: seq<Cidr>): (r: Result<Option<Location>, AddrError>)
    ensures r.Failure? <==> ParseIp(etype, addr).Failure?
    ensures r.Failure? ==> r.error == ParseIp(etype, addr).error
    ensures r == Success(None) <==> ParseIp(etype, addr) == Success(None)
    ensures forall ip :: ParseIp(etype, addr) == Success(Some(ip)) ==>
              && (r == Success(Some(Inside(ip))) <==> exists i :: 0 <= i < |cidrs| && Contains(cidrs[i], ip))
              && (r == Success(Some(Outside)) <==> forall i :: 0 <= i < |cidrs| ==> !Contains(cidrs[i], ip))
  {
    match ParseIp(etype, addr)
    case Failure(e) => Failure(e)
    case Success(None) => Success(None)
    case Success(Some(ip)) => Success(Some(Classify(ip, cidrs)))
  }

  /** Adding ranges never turns an inside address outside. */
  lemma ClassifyMonotonic(ip: IpAddr, a: seq<Cidr>, b: seq<Cidr>)
    requires forall c :: c in a ==> c in b
    ensures Classify(ip, a).Inside? ==> Classify(ip, b) == Inside(ip)
  {
    if Classify(ip, a).Inside? {
      var i :| 0 <= i < |a| && Contains(a[i], ip);
      assert a[i] in b;
      var j :| 0 <= j < |b| && b[j] == a[i];
    }
  }

  /** Classification depends only on which ranges are configured, not on
      their order or repetition: every match yields the same `Inside(ip)`. */
  lemma ClassifyOrderIndependent(ip: IpAddr, a: seq<Cidr>, b: seq<Cidr>)
    requires forall c :: c in a <==> c in b
    ensures Classify(ip, a) == Classify(ip, b)
  {
    ClassifyMonotonic(ip, a, b);
    ClassifyMonotonic(ip, b, a);
  }

  /** `10.1.2.3` is inside `10.0.0.0/8`, `8.8.8.8` is not, and with no
      ranges configured every address is outside. */
  lemma ClassifyExamples()
    ensures Classify(V4([10, 1, 2, 3]), [Cidr(V4([10, 0, 0, 0]), 8)]) == Inside(V4([10, 1, 2, 3]))
    ensures Classify(V4([8, 8, 8, 8]), [Cidr(V4([10, 0, 0, 0]), 8)]) == Outside
    ensures Classify(V4([10, 1, 2, 3]), []) == Outside
  {
    var net := Cidr(V4([10, 0, 0, 0]), 8);
    assert Contains(net, V4([10, 1, 2, 3]));
    assert Pow2(1) == 2;
    assert Bit(Octets(net.network), 6) != Bit(Octets(V4([8, 8, 8, 8])), 6);
    assert !Contains(net, V4([8, 8, 8, 8]));
  }

  /** `impl Serialize for Location`: the address text, or the literal "outside". */
  function Serialize(l: Location): (s: string)
    ensures s == "outside" <==> l == Outside
  {
    match l
    case Inside(ip) => SerializeNotOutside(ip); IpText(ip)
    case Outside => "outside"
  }

  lemma SerializeNotOutside(ip: IpAddr)
    ensures IpText(ip) != "outside"
  {
    var s := IpText(ip);
    if |s| == 7 {
      assert !IsAddrChar(s[0]) || s[0] != 'o';
    }
  }

  /** The derived `Debug` form of a location. `IpAddr`'s own `Debug` prints its
      `Display` text, so an inside address shows as `Inside(<address text>)`. */
  function Debug(l: Location): (s: string)
    ensures |s| > 0 && s[0] in "IO"
    ensures s == "Outside" <==> l == Outside
    ensures l.Inside? ==> s == "Inside(" + IpText(l.ip) + ")"
  {
    match l
    case Inside(ip) => "Inside(" + IpText(ip) + ")"
    case Outside => "Outside"
  }

  /** The `Debug` and `Serialize` forms never coincide. */
  lemma DebugDiffersFromSerialize(l: Location)
    ensures Debug(l) != Serialize(l)
  {
    var d, s := Debug(l), Serialize(l);
    if |s| > 0 {
      if l.Inside? {
        assert IsAddrChar(s[0]);
      }
      assert d[0] != s[0];
    }
  }
}

=== FILE: wrappers.dfy ===
/** Failure-compatible wrappers used throughout the model: `Option` for the
    source's `Option<T>` and `Result` for its `anyhow::Result<T>`. */
module Wrappers {

  datatype Option<+T> = None | Some(value: T)

  datatype Result<+T, +E> = Success(value: T) | Failure(error: E)
}
